=== FILE: README.md ===
# Sweet shop catalog — a Dafny model

This project models the core of a sweet shop's backend. That core is the catalog of sweets and
the operations the REST API performs on it. The model covers:

- the `Sweet` schema: its field rules, the trim setters, the quantity default, and the
  pre-save hook that stamps `updatedAt`;
- the sweets controller: create, list newest first, search, get by id, partial update, delete;
- the inventory controller: purchase and restock, the only operations that do arithmetic on stock;
- the sweets router: which handler a request reaches and which middleware may turn it away.

The database becomes an immutable catalog, `map<Id, Sweet>`. Each operation is a pure function
from the catalog and the request to a `Result`. A failure carries no catalog, so the stored
catalog stands unchanged. A success carries the new catalog and the sweet sent back. The clock
(`Date.now()`) is a parameter `now`; creation reads it twice, `created` for the `createdAt`
default when the document is built and `now` in the pre-save hook. The caller identity that the authentication middleware
establishes is a parameter `Option<Role>`. Prices are integer cents.

Files:

- `common.dfy`: `Option` and `Result`.
- `text.dfy`: JavaScript's `String.prototype.trim`, JavaScript's string length (UTF-16 code
  units), and ASCII lower-casing for the case-insensitive name search and route matching.
- `sweet.dfy`: the schema (`Category`, field rules, validators, aggregated validation, the
  trim/default cast of a request body, `Save`).
- `catalog.dfy`: the catalog, its well-formedness invariant, and the newest-first listing.
- `responses.dfy`: failure kinds with their HTTP status codes.
- `inventory.dfy`, `sweet_controller.dfy`, `sweet_routes.dfy`: the three core source files.
- `scenarios.dfy`: concrete cases proved about the model: the outcomes the repository's
  inventory tests expect, the not-found answers of the stock handlers, a padded category
  filter, lengths of strings with characters outside the Basic Multilingual Plane, and one
  end-to-end sequence on a single sweet (create, read, purchase, update, restock).

Decisions the model makes:

- `minlength` and `maxlength` compare JavaScript's `length`, which counts UTF-16 code units:
  a character outside the Basic Multilingual Plane counts twice (`Text.Utf16Length`).
- Per path, the first failing validator of the schema is reported; `required` runs first and,
  on a string, also rejects `""`. Errors of all paths are aggregated, in schema order.
- `sort({ createdAt: -1 })` leaves ties open; the model breaks them by ascending id, so the
  listing is a function of the catalog. `CatalogStore.ListsUnique` shows it is the only
  ordered listing.
- Purchase and restock call `save()`, which validates again; a failing save would reach the
  500 handler. The model keeps that path (`ServerError`) and proves it unreachable on a
  well-formed catalog.
- Update: the code tests every one of the five keys with `!== undefined`, so any key present
  in the body overwrites its path, falsy values such as `0` or `""` included. The model follows
  the code, which applies this presence rule uniformly across the fields.
- The search query is cast through the schema before `find` runs, so a category filter is
  trimmed by its setter; the name filter is a `$regex` and is not cast.
- Express matches literal path segments case-insensitively, and `:id` matches any non-empty
  segment. The first matching route in declaration order wins.

## Model

| member | source | states |
|---|---|---|
| Text.TrimStartSpec | backend/src/models/Sweet.js:7 | trimming the start keeps a suffix, removes only whitespace, and stops at the first non-whitespace character |
| Text.TrimEndSpec | backend/src/models/Sweet.js:7 | trimming the end keeps a prefix, removes only whitespace, and stops at the last non-whitespace character |
| Text.TrimSpec | backend/src/models/Sweet.js:7 | the trim of `s` is a slice `s[i..j]`; everything outside it is whitespace and neither end of it is |
| Text.Trim | backend/src/models/Sweet.js:7 | the `trim: true` setter, JavaScript's `String.prototype.trim`; `TrimSpec` and `TrimFixpoint` state what it does |
| Text.TrimmedFixed | backend/src/models/Sweet.js:13 | a string with no whitespace at either end is its own trim |
| Text.TrimFixpoint | backend/src/models/Sweet.js:32 | trim leaves exactly the trimmed strings unchanged and is idempotent, so a stored value trims to itself |
| Text.Utf16Length | backend/src/models/Sweet.js:8 | a string's JavaScript length lies between its character count and twice that |
| Text.AstralCount | backend/src/models/Sweet.js:33 | the count of astral characters from a position on is zero exactly when none is astral and full exactly when all are |
| Text.Utf16LengthCounts | backend/src/models/Sweet.js:8 | the JavaScript length equals the character count exactly when no character lies outside the Basic Multilingual Plane, and twice it exactly when every character does |
| Text.LowerCharAgrees | backend/src/controllers/sweetController.js:75 | two characters compare equal under the case-insensitive match exactly when they are equal or are the same ASCII letter in the two cases |
| Text.LowerStringAgrees | backend/src/routes/sweetRoutes.js:30-45 | two path segments lower-case to the same string exactly when they have the same length and agree position by position up to ASCII letter case, so `/search` is recognised in any letter case and in no other spelling |
| Text.LowerStringIdempotent | backend/src/routes/sweetRoutes.js:30-45 | a lower-cased segment holds no ASCII capital and lower-casing it again changes nothing |
| SweetModel.ParseCategory | backend/src/models/Sweet.js:14-17 | a string is accepted exactly when it is the name of one of the seven categories, and it yields that category |
| SweetModel.CategoryRoundTrip | backend/src/models/Sweet.js:15 | parsing a category's name gives the category back |
| SweetModel.ValidateName | backend/src/models/Sweet.js:4-9 | no error exactly when a name of at least 2 UTF-16 code units is present; `required` is reported exactly for an absent or empty name |
| SweetModel.ValidateCategory | backend/src/models/Sweet.js:10-18 | no error exactly when the value is one of the enum values; `required` is reported exactly for an absent or empty value |
| SweetModel.ValidatePrice | backend/src/models/Sweet.js:19-23 | no error exactly when a price of at least 0 is present; `required` is reported exactly when it is absent |
| SweetModel.ValidateQuantity | backend/src/models/Sweet.js:24-29 | no error exactly when a quantity of at least 0 is present; `required` is reported exactly when it is absent |
| SweetModel.ValidateDescription | backend/src/models/Sweet.js:30-34 | an absent description is fine; a present one fails exactly when it exceeds 500 UTF-16 code units |
| SweetModel.Check | backend/src/controllers/sweetController.js:25-30 | the error list is empty exactly when the document is acceptable; it names every broken rule's path, only broken paths, and each path at most once |
| SweetModel.AllErrorsSound | backend/src/controllers/sweetController.js:26 | every aggregated error belongs to a path whose rule the document breaks |
| SweetModel.AllErrorsCover | backend/src/controllers/sweetController.js:26 | every path whose rule the document breaks contributes an error |
| SweetModel.Reported | backend/src/controllers/sweetController.js:26 | each broken path has an error in the aggregated list that names it |
| SweetModel.AllErrorsOnePerPath | backend/src/models/Sweet.js:3-34 | errors come in schema order, so no path is reported twice |
| SweetModel.Cast | backend/src/controllers/sweetController.js:12-18 | building a new document sets each string path to the trim of the body's value (absent stays absent), leaves the document trimmed, applies the quantity default 0 to an absent quantity, and keeps the price |
| SweetModel.CastAcceptable | backend/src/models/Sweet.js:3-34 | the cast document is acceptable exactly when the raw body meets the rules stated on trimmed values |
| SweetModel.Assign | backend/src/controllers/sweetController.js:152-156 | assigning paths through the trim setters keeps a trimmed document trimmed |
| SweetModel.Valid | backend/src/models/Sweet.js:3-34 | the schema rules on a stored sweet; `ValidIffAcceptable` ties them to the validators and `Save` guarantees them |
| SweetModel.ValidIffAcceptable | backend/src/models/Sweet.js:3-43 | the validity predicate on stored sweets agrees with the schema rules on their documents |
| SweetModel.Save | backend/src/models/Sweet.js:46-49 | save succeeds exactly when the document is acceptable and fails with the full error list otherwise; the saved sweet is valid, holds the document's values, keeps `createdAt`, and gets `updatedAt = now` |
| SweetModel.SaveStock | backend/src/controllers/inventoryController.js:47-48 | saving a stored sweet with a new stock succeeds exactly when the result is valid, and then only the stock and `updatedAt` change |
| SweetModel.SaveValid | backend/src/models/Sweet.js:46-49 | re-saving a valid sweet succeeds and changes only `updatedAt` |
| CatalogStore.NewestExists | backend/src/controllers/sweetController.js:47 | every non-empty catalog has a document that comes first in newest-first order |
| CatalogStore.NewestUnique | backend/src/controllers/sweetController.js:47 | at most one document comes first |
| CatalogStore.NewestFirst | backend/src/controllers/sweetController.js:47 | the listing holds every document of the catalog once, each with its stored sweet, ordered by `createdAt` descending |
| CatalogStore.ListsUnique | backend/src/controllers/sweetController.js:47 | any sequence that lists the catalog in that order is the listing itself |
| CatalogStore.NewestHeadsListing | backend/src/controllers/sweetController.js:47 | a document newer than all others is first in the listing |
| CatalogStore.InsertNewest | backend/src/controllers/sweetController.js:47 | a document stored later than every other one heads the new listing |
| Responses.Status | backend/src/controllers/inventoryController.js:13-101 | every failure is answered with 400, 404 or 500; 404 exactly for an unknown id and 500 exactly for a server error |
| InventoryController.Purchase | backend/src/controllers/inventoryController.js:8-61 | the checks run in order: quantity below 1, unknown id, empty stock, stock below the request (reporting the stock); on success the stock drops by the request and stays at least 0, `updatedAt` is refreshed, and nothing else changes; on a well-formed catalog it succeeds exactly when the id exists and 1 <= quantity <= stock, and it keeps the catalog well-formed |
| InventoryController.Restock | backend/src/controllers/inventoryController.js:68-105 | a quantity that is absent or below 1 is rejected before the lookup, then an unknown id; on success the stock grows by the quantity and nothing else changes; on a well-formed catalog it succeeds exactly when the quantity is at least 1 and the id exists |
| InventoryController.Store | backend/src/controllers/inventoryController.js:91-92 | writing a new stock succeeds exactly when the changed sweet is still valid; the catalog then holds it with a fresh `updatedAt` |
| InventoryController.StoreIsSave | backend/src/controllers/inventoryController.js:47-48 | writing the stock is exactly a save of the changed document followed by a write to the catalog; a rejected save gives the 500 answer |
| InventoryController.InventoryStatuses | backend/src/controllers/inventoryController.js:13-44 | on a well-formed catalog, purchase and restock fail only with 404 for an unknown id or 400 otherwise, never 500 |
| InventoryController.PurchaseDefaultsToOne | backend/src/controllers/inventoryController.js:10 | a purchase without a quantity is the purchase of one item |
| InventoryController.RestockUndoesPurchase | backend/src/controllers/inventoryController.js:47 | restocking the quantity just bought restores the sweet; only `updatedAt` differs |
| InventoryController.PurchaseUndoesRestock | backend/src/controllers/inventoryController.js:91 | buying the quantity just restocked always succeeds and restores the sweet |
| InventoryController.PurchasesCompose | backend/src/controllers/inventoryController.js:39-47 | two successive purchases equal one purchase of their sum |
| InventoryController.PurchaseMonotone | backend/src/controllers/inventoryController.js:39-44 | when a purchase succeeds, every smaller positive purchase succeeds too |
| SweetController.CreateSweet | backend/src/controllers/sweetController.js:8-38 | creation succeeds exactly when the body meets the schema rules on trimmed values; otherwise it fails with every violated rule; on success the new sweet holds the trimmed name and description, the category named by the trimmed value, the price, the quantity or 0, `createdAt` from the first clock reading and `updatedAt` from the second |
| SweetController.ListSweets | backend/src/controllers/sweetController.js:45-60 | the listing holds every sweet once, newest first |
| SweetController.Matches | backend/src/controllers/sweetController.js:71-88 | the filter `find` applies: a supplied name occurs case-insensitively, a supplied category equals the stored one after the trim setter casts it, the price lies within the supplied bounds; `Select` and `SearchConjunctive` state its meaning |
| Scenarios.PaddedCategorySearch | backend/src/controllers/sweetController.js:79-81 | a category filter `" chocolate "` finds the stored chocolate bar, because the query value is trimmed before the comparison |
| SweetController.Select | backend/src/controllers/sweetController.js:71-88 | the query keeps exactly the documents that satisfy every supplied filter, with their stored values |
| SweetController.SearchSweets | backend/src/controllers/sweetController.js:67-103 | every result is a stored sweet that meets every supplied filter; every such sweet is in the result; results are newest first |
| SweetController.SearchIds | backend/src/controllers/sweetController.js:74-90 | an id is in the result exactly when its sweet meets the filters |
| SweetController.SearchWithoutFiltersIsList | backend/src/controllers/sweetController.js:69-90 | a search with no filter returns the same sequence as the listing |
| SweetController.SearchConjunctive | backend/src/controllers/sweetController.js:74-88 | the result of a search is the intersection of the name-only, category-only and price-only searches |
| SweetController.SearchNarrowing | backend/src/controllers/sweetController.js:74-88 | adding or tightening a filter never enlarges the result |
| SweetController.GetSweetById | backend/src/controllers/sweetController.js:110-131 | a lookup succeeds exactly for a stored id and returns that sweet; otherwise it reports not found |
| SweetController.UpdateSweet | backend/src/controllers/sweetController.js:138-178 | an unknown id is not found; otherwise the update succeeds exactly when the merged document is acceptable, and fails with its errors otherwise; present keys overwrite (strings trimmed) and absent keys keep the stored values; `createdAt` is kept and `updatedAt` is `now` |
| SweetController.DeleteSweet | backend/src/controllers/sweetController.js:185-208 | an unknown id is not found; otherwise exactly that id is removed and every other sweet is unchanged |
| SweetController.GetAfterCreate | backend/src/controllers/sweetController.js:12-18 | a created sweet can be read back by its id |
| SweetController.DeleteUndoesCreate | backend/src/controllers/sweetController.js:187-196 | deleting the sweet just created restores the catalog |
| SweetController.GetAfterDelete | backend/src/controllers/sweetController.js:187-200 | after a delete the id is not found and every other lookup is unaffected |
| SweetController.UpdateWithoutKeys | backend/src/controllers/sweetController.js:152-158 | an update with no keys only refreshes `updatedAt` |
| SweetController.UpdateIdempotent | backend/src/controllers/sweetController.js:152-158 | applying the same update twice gives the same sweet as applying it once, apart from `updatedAt` |
| SweetController.CreatedListedFirst | backend/src/controllers/sweetController.js:47 | a sweet created after everything in the catalog heads the listing |
| SweetRoutes.FirstMatch | backend/src/routes/sweetRoutes.js:20-55 | the position found is the first route of the table that matches the request, or none matches |
| SweetRoutes.RunGuards | backend/src/routes/sweetRoutes.js:20-55 | a middleware chain can only answer 401 or 403 |
| SweetRoutes.FirstMatchIsTarget | backend/src/routes/sweetRoutes.js:20-55 | a request matches a route exactly when the verb and the path shape select a handler, and the first match is that handler |
| SweetRoutes.RouteGuards | backend/src/routes/sweetRoutes.js:20-55 | every route authenticates first; create, restock, update and delete then require an admin |
| SweetRoutes.GuardChains | backend/src/routes/sweetRoutes.js:20 | authentication answers 401 before the admin check answers 403 |
| SweetRoutes.Decide | backend/src/routes/sweetRoutes.js:20-55 | the router's decision for a request; `DecideFollowsPolicy` states that it equals the access policy |
| SweetRoutes.DecideFollowsPolicy | backend/src/routes/sweetRoutes.js:17-55 | the router's decision equals the access policy: no route gives 404, no caller gives 401, a non-admin on an admin-only handler gives 403, and otherwise the handler runs |
| SweetRoutes.UnauthenticatedRejected | backend/src/routes/sweetRoutes.js:20-55 | without a verified caller every route answers 401, admin routes included |
| SweetRoutes.CustomerForbiddenExactlyOnAdminRoutes | backend/src/routes/sweetRoutes.js:20-55 | a customer gets 403 exactly on create, restock, update and delete, and reaches every other handler |
| SweetRoutes.AdminAllowedEverywhere | backend/src/routes/sweetRoutes.js:20-55 | an admin reaches the handler of every route |
| SweetRoutes.SearchShadowsId | backend/src/routes/sweetRoutes.js:30-45 | `GET /search`, in any letter case, reaches the search handler and is never read as an id; any other single segment reaches get-by-id |
| Scenarios.InventoryTests | backend/__tests__/inventory/inventory.test.js:58-190 | 10 - 2 = 8, 10 - 3 = 7, a purchase without a quantity succeeds, an explicit purchase of 1 leaves 9, buying 15 of 10 fails, an empty stock fails, 10 + 20 = 30, 10 + 15 = 25, a missing or negative restock quantity fails |
| Scenarios.PurchaseUnknownId | backend/src/controllers/inventoryController.js:21-28 | a purchase of an id the catalog lacks is not found, status 404 |
| Scenarios.RestockUnknownId | backend/src/controllers/inventoryController.js:81-88 | a restock of an id the catalog lacks is not found, status 404 |
| Scenarios.SurrogatePairs | backend/src/models/Sweet.js:8-33 | a one-character name outside the Basic Multilingual Plane meets the minimum length, and 300 such characters exceed the description maximum |
| Scenarios.GummyBodyAccepted | backend/src/models/Sweet.js:3-34 | the create body of the sweets tests is already trimmed and acceptable |
| Scenarios.CreateGummies | backend/__tests__/sweets/sweets.test.js:61-80 | the create of the sweets tests: creating "Gummy Bears" into a catalog that already holds one sweet, and into an empty catalog where the end-to-end sequence starts, stores the body as sent, `createdAt` from the first clock reading and `updatedAt` from the second |
| Scenarios.GummyPurchases | backend/src/controllers/inventoryController.js:39-48 | steps 2 to 4: the created sweet reads back; buying 15 of 100 leaves 85; buying 1000 then fails and reports 85 |
| Scenarios.GummyEmptied | backend/src/controllers/sweetController.js:152-158 | step 5: an update to quantity 0 stores 0, a falsy value that still overwrites |
| Scenarios.GummyRestock | backend/src/controllers/inventoryController.js:31-36 | steps 6 and 7: with an empty stock a purchase fails as out of stock, and restocking 50 gives 50 |
| Scenarios.RestockNeedsAdmin | backend/__tests__/inventory/inventory.test.js:161-170 | a customer is forbidden from restocking and an admin reaches the restock handler |

## Left out

- MongoDB and Mongoose persistence, `findById`, `find` and `sort` internals, and the
  `res.status().json()` plumbing: the catalog is a map and the answers are `Result` values
  with `Responses.Status` giving their codes.
- Storage failures and the other 500 catch-all branches: a pure model cannot fail to store.
  The 500 after a rejected re-save is kept and shown unreachable.
- A malformed id string (a Mongoose `CastError`, which reaches the 500 branch): ids are naturals.
- JWT verification, password hashing and the authentication middleware, whose source is not
  part of this model: the caller is an abstract `Option<Role>`.
- The read-modify-write race between concurrent purchases: each operation is atomic.
- JavaScript numbers are doubles, exact only up to `Number.MAX_SAFE_INTEGER` (2^53 - 1);
  quantities here are unbounded integers. Above that bound `+=` and `-=` round, so
  `InventoryController.RestockUndoesPurchase`, `InventoryController.PurchaseUndoesRestock` and
  `InventoryController.PurchasesCompose` hold in the source only while the stocks and quantities
  involved stay below it.
- JavaScript strings may hold unpaired surrogates (JSON `"\ud83c"` has length 1); a Dafny
  `char` is a Unicode scalar value, so such strings cannot be represented.
- Floating-point prices and `parseFloat` of the price bounds (including `NaN`): prices are
  integer cents, and a supplied bound is an integer.
- JavaScript type coercion (string or fractional quantities, `+=` on a string, `null` values):
  quantities are integers, and a body key is either absent or holds a value of its type.
- Regular-expression semantics of the name filter: the name must contain the filter as a
  literal substring, compared after ASCII lower-casing.
- Unicode case folding beyond ASCII in the name filter and in route matching, and trailing
  slashes in paths.
- The wording of messages: a failure records only its kind, the stock it reports, and the
  validation errors.
- The order in which Mongoose lists validation errors: the model uses schema order.
- The response envelope (`success`, `count`, `message`) and the success codes 200 and 201.

=== FILE: catalog.dfy ===
/** The collection of sweets, keyed by document id, and the newest-first order in which
    queries return them. */
module CatalogStore {
  import opened SweetModel

  /** A document id. ObjectIds are 96-bit numbers; the model keeps them as naturals. */
  type Id = nat

  type Catalog = map<Id, Sweet>

  /** What every stored sweet satisfies: the schema rules, with trimmed string paths. */
  predicate WellFormed(c: Catalog) {
    forall id :: id in c ==> Valid(c[id]) && Normalized(c[id])
  }

  /** Storing a well-formed sweet under any id keeps the catalog well-formed. */
  lemma WellFormedStore(c: Catalog, id: Id, s: Sweet)
    requires WellFormed(c)
    requires Valid(s) && Normalized(s)
    ensures WellFormed(c[id := s])
  {
  }

  /** A second write to the same id overrides the first. */
  lemma OverwriteTwice(c: Catalog, id: Id, a: Sweet, b: Sweet)
    ensures c[id := a][id := b] == c[id := b]
  {
    assert c[id := a][id := b].Keys == c[id := b].Keys;
  }

  /** Removing a document just stored under a fresh id restores the catalog. */
  lemma RemoveAfterStore(c: Catalog, id: Id, s: Sweet)
    requires id !in c
    ensures c[id := s] - {id} == c
  {
    assert (c[id := s] - {id}).Keys == c.Keys;
  }

  /** A returned document: the sweet together with its id. */
  datatype Entry = Entry(id: Id, sweet: Sweet)

  /** The order of `sort({ createdAt: -1 })`: newer first. The sort leaves ties between equal
      timestamps unspecified; the model breaks them by ascending id. */
  predicate Precedes(a: Entry, b: Entry) {
    a.sweet.createdAt > b.sweet.createdAt
    || (a.sweet.createdAt == b.sweet.createdAt && a.id < b.id)
  }

  predicate Ordered(r: seq<Entry>) {
    forall i, j :: 0 <= i < j < |r| ==> Precedes(r[i], r[j])
  }

  function Ids(r: seq<Entry>): set<Id> {
    set i | 0 <= i < |r| :: r[i].id
  }

  /** `r` lists the documents of `c`, each with its stored sweet, every id of `c` once,
      newest first. */
  predicate Lists(r: seq<Entry>, c: Catalog) {
    && Ids(r) == c.Keys
    && (forall i :: 0 <= i < |r| ==> r[i].id in c && r[i].sweet == c[r[i].id])
    && Ordered(r)
  }

  /** `k` comes before every other document of `c`. */
  predicate IsNewest(c: Catalog, k: Id) {
    k in c && forall j :: j in c && j != k ==> Precedes(Entry(k, c[k]), Entry(j, c[j]))
  }

  lemma {:induction false} NewestExists(c: Catalog)
    requires |c| > 0
    ensures exists k :: IsNewest(c, k)
    decreases |c|
  {
    var x :| x in c;
    if |c| == 1 {
      assert c.Keys == {x} by {
        assert |c.Keys - {x}| == 0;
      }
      assert IsNewest(c, x);
    } else {
      var rest := c - {x};
      assert |rest| == |c| - 1;
      NewestExists(rest);
      var k :| IsNewest(rest, k);
      var ex, ek := Entry(x, c[x]), Entry(k, c[k]);
      if Precedes(ex, ek) {
        forall j | j in c && j != x ensures Precedes(ex, Entry(j, c[j])) {
          if j != k {
            assert j in rest && Precedes(ek, Entry(j, rest[j]));
          }
        }
        assert IsNewest(c, x);
      } else {
        forall j | j in c && j != k ensures Precedes(ek, Entry(j, c[j])) {
          if j != x {
            assert j in rest && Precedes(ek, Entry(j, rest[j]));
          }
        }
        assert IsNewest(c, k);
      }
    }
  }

  lemma NewestUnique(c: Catalog, a: Id, b: Id)
    requires IsNewest(c, a) && IsNewest(c, b)
    ensures a == b
  {
  }

  /** The first document of a non-empty catalog in newest-first order. */
  function Newest(c: Catalog): (k: Id)
    requires |c| > 0
    ensures IsNewest(c, k)
  {
    NewestExists(c);
    var k :| IsNewest(c, k);
    k
  }

  /** Putting the newest document in front of a listing of the others lists the whole catalog. */
  lemma ListsCons(c: Catalog, k: Id, tail: seq<Entry>)
    requires IsNewest(c, k)
    requires Lists(tail, c - {k})
    ensures Lists([Entry(k, c[k])] + tail, c)
  {
    ConsIds(c, k, tail);
    ConsOrdered(c, k, tail);
    var r := [Entry(k, c[k])] + tail;
    forall i | 0 <= i < |r| ensures r[i].id in c && r[i].sweet == c[r[i].id] {
      if i > 0 { assert r[i] == tail[i - 1]; }
    }
  }

  lemma ConsIds(c: Catalog, k: Id, tail: seq<Entry>)
    requires k in c
    requires Ids(tail) == (c - {k}).Keys
    ensures Ids([Entry(k, c[k])] + tail) == c.Keys
  {
    var r := [Entry(k, c[k])] + tail;
    forall id | id in Ids(r) ensures id in c.Keys {
      var i :| 0 <= i < |r| && r[i].id == id;
      if i > 0 { assert tail[i - 1].id == id && id in Ids(tail); }
    }
    forall id | id in c.Keys ensures id in Ids(r) {
      if id == k {
        assert r[0].id == id;
      } else {
        assert id in Ids(tail);
        var i :| 0 <= i < |tail| && tail[i].id == id;
        assert r[i + 1].id == id;
      }
    }
  }

  lemma ConsOrdered(c: Catalog, k: Id, tail: seq<Entry>)
    requires IsNewest(c, k)
    requires Lists(tail, c - {k})
    ensures Ordered([Entry(k, c[k])] + tail)
  {
    var r := [Entry(k, c[k])] + tail;
    forall i, j | 0 <= i < j < |r| ensures Precedes(r[i], r[j]) {
      if i > 0 {
        assert r[i] == tail[i - 1] && r[j] == tail[j - 1];
      } else {
        assert r[j] == tail[j - 1] && tail[j - 1].id in Ids(tail);
      }
    }
  }

  /** The whole catalog as `find().sort({ createdAt: -1 })` returns it. */
  function NewestFirst(c: Catalog): (r: seq<Entry>)
    ensures Lists(r, c)
    ensures |r| == |c|
    decreases |c|
  {
    if |c| == 0 then []
    else
      var k := Newest(c);
      var rest := c - {k};
      assert |rest| == |c| - 1;
      var tail := NewestFirst(rest);
      ListsCons(c, k, tail);
      [Entry(k, c[k])] + tail
  }

  /** A document newer than all others heads the listing. */
  lemma NewestHeadsListing(c: Catalog, id: Id)
    requires id in c
    requires forall k :: k in c && k != id ==> c[k].createdAt < c[id].createdAt
    ensures NewestFirst(c) != [] && NewestFirst(c)[0] == Entry(id, c[id])
  {
    assert IsNewest(c, id);
    NewestUnique(c, id, Newest(c));
  }

  /** A document stored later than every other one heads the listing. */
  lemma InsertNewest(c: Catalog, id: Id, s: Sweet)
    requires forall k :: k in c && k != id ==> c[k].createdAt < s.createdAt
    ensures NewestFirst(c[id := s]) != [] && NewestFirst(c[id := s])[0] == Entry(id, s)
  {
    var after := c[id := s];
    assert forall k :: k in after && k != id ==> after[k] == c[k];
    NewestHeadsListing(after, id);
  }

  /** Removing the first entry of a listing lists the catalog without that document. */
  lemma ListsTail(r: seq<Entry>, c: Catalog)
    requires Lists(r, c) && r != []
    ensures IsNewest(c, r[0].id)
    ensures Lists(r[1..], c - {r[0].id})
  {
    var k := r[0].id;
    var tail := r[1..];
    forall j | j in c && j != k ensures Precedes(Entry(k, c[k]), Entry(j, c[j])) {
      assert j in Ids(r);
      var i :| 0 <= i < |r| && r[i].id == j;
      assert i > 0;
    }
    forall id | id in Ids(tail) ensures id in (c - {k}).Keys {
      var i :| 0 <= i < |tail| && tail[i].id == id;
      assert r[i + 1] == tail[i] && Precedes(r[0], r[i + 1]);
    }
    forall id | id in (c - {k}).Keys ensures id in Ids(tail) {
      assert id in Ids(r);
      var i :| 0 <= i < |r| && r[i].id == id;
      assert tail[i - 1].id == id;
    }
  }

  /** The newest-first listing is the only ordered listing of a catalog. */
  lemma {:induction false} ListsUnique(r: seq<Entry>, c: Catalog)
    requires Lists(r, c)
    ensures r == NewestFirst(c)
    decreases |c|
  {
    if r == [] {
      assert c.Keys == Ids(r) == {};
    } else {
      ListsTail(r, c);
      var k := Newest(c);
      NewestUnique(c, k, r[0].id);
      var rest := c - {k};
      assert |rest| == |c| - 1;
      assert NewestFirst(c) == [Entry(k, c[k])] + NewestFirst(rest);
      ListsUnique(r[1..], rest);
      assert r[0] == Entry(k, c[k]);
      assert r == [r[0]] + r[1..];
    }
  }
}

=== FILE: common.dfy ===
/** Optional values and two-way outcomes shared by every module of the model. */
module Common {

  /** A value that may be missing: `None` stands for an absent JSON key (undefined). */
  datatype Option<+T> = None | Some(value: T)

  /** The outcome of a controller: a value on success, an error otherwise. */
  datatype Result<+T, +E> = Ok(value: T) | Err(error: E)
}

=== FILE: inventory.dfy ===
/** Purchase and restock: the only operations that do arithmetic on a sweet's stock. Each is
    a transition of the catalog; a failure carries no catalog, so the stored one stands. */
module InventoryController {
  import opened Common
  import opened SweetModel
  import opened CatalogStore
  import opened Responses

  /** The purchase quantity: a body without the key buys one item. An explicit value, even 0,
      is taken as given. */
  function Requested(quantity: Option<int>): int {
    if quantity.None? then 1 else quantity.value
  }

  /** POST /:id/purchase. The checks run in a fixed order: a quantity below one (0 is falsy and
      also rejected), an unknown id, an empty stock, a stock below the request. Otherwise the
      stock drops by the quantity and the document is saved. */
  function Purchase(c: Catalog, id: Id, quantity: Option<int>, now: int): (r: Result<Change, Failure>)
    ensures Requested(quantity) < 1 ==> r == Err(InvalidQuantity)
    ensures Requested(quantity) >= 1 && id !in c ==> r == Err(NotFound)
    ensures Requested(quantity) >= 1 && id in c && c[id].quantity == 0 ==> r == Err(OutOfStock)
    ensures (Requested(quantity) >= 1 && id in c && c[id].quantity != 0 && c[id].quantity < Requested(quantity))
            ==> r == Err(InsufficientStock(c[id].quantity))
    ensures r.Ok? ==> id in c && 1 <= Requested(quantity) <= c[id].quantity
    ensures r.Ok? ==> r.value.sweet == c[id].(quantity := c[id].quantity - Requested(quantity), updatedAt := now)
    ensures r.Ok? ==> r.value.catalog == c[id := r.value.sweet] && r.value.sweet.quantity >= 0
    ensures WellFormed(c) ==> (r.Ok? <==> id in c && 1 <= Requested(quantity) <= c[id].quantity)
    ensures WellFormed(c) && r.Ok? ==> WellFormed(r.value.catalog)
  {
    var q := Requested(quantity);
    if q < 1 then Err(InvalidQuantity)
    else if id !in c then Err(NotFound)
    else
      var s := c[id];
      if s.quantity == 0 then Err(OutOfStock)
      else if s.quantity < q then Err(InsufficientStock(s.quantity))
      else Store(c, id, s, s.quantity - q, now)
  }

  /** POST /:id/restock. The quantity must be present and at least one; then the id must
      exist; then the stock grows by the quantity and the document is saved. */
  function Restock(c: Catalog, id: Id, quantity: Option<int>, now: int): (r: Result<Change, Failure>)
    ensures quantity.None? || quantity.value < 1 ==> r == Err(InvalidQuantity)
    ensures quantity.Some? && quantity.value >= 1 && id !in c ==> r == Err(NotFound)
    ensures r.Ok? ==> quantity.Some? && quantity.value >= 1 && id in c
    ensures r.Ok? ==> r.value.sweet == c[id].(quantity := c[id].quantity + quantity.value, updatedAt := now)
    ensures r.Ok? ==> r.value.catalog == c[id := r.value.sweet]
    ensures WellFormed(c) ==> (r.Ok? <==> quantity.Some? && quantity.value >= 1 && id in c)
    ensures WellFormed(c) && r.Ok? ==> WellFormed(r.value.catalog)
  {
    if quantity.None? || quantity.value < 1 then Err(InvalidQuantity)
    else if id !in c then Err(NotFound)
    else
      var s := c[id];
      Store(c, id, s, s.quantity + quantity.value, now)
  }

  /** `sweet.quantity = stock; await sweet.save()`: the save validates the whole document again,
      and a rejected save falls through to the 500 handler. StoreIsSave shows that this is exactly
      a save of the changed document followed by a write to the catalog. */
  function Store(c: Catalog, id: Id, s: Sweet, stock: int, now: int): (r: Result<Change, Failure>)
    requires id in c && c[id] == s
    ensures r.Ok? <==> Valid(s.(quantity := stock))
    ensures r.Ok? ==> r.value.sweet == s.(quantity := stock, updatedAt := now)
    ensures r.Ok? ==> r.value.catalog == c[id := r.value.sweet]
    ensures WellFormed(c) && r.Ok? ==> WellFormed(r.value.catalog)
  {
    SaveStock(s, stock, now);
    var t := s.(quantity := stock, updatedAt := now);
    if Valid(t) then
      assert WellFormed(c) ==> WellFormed(c[id := t]) by {
        if WellFormed(c) {
          WellFormedStore(c, id, t);
        }
      }
      Ok(Change(c[id := t], t))
    else Err(ServerError)
  }

  lemma StoreIsSave(c: Catalog, id: Id, s: Sweet, stock: int, now: int)
    requires id in c && c[id] == s
    ensures Store(c, id, s, stock, now)
            == match Save(FieldsOf(s).(quantity := Some(stock)), s.createdAt, now)
               case Ok(saved) => Ok(Change(c[id := saved], saved))
               case Err(_) => Err(ServerError)
  {
    SaveStock(s, stock, now);
  }

  /** On a well-formed catalog the save never fails, so no request is answered with 500: an
      unknown id gets 404 once the quantity is acceptable, every other failure 400. */
  lemma InventoryStatuses(c: Catalog, id: Id, quantity: Option<int>, now: int)
    requires WellFormed(c)
    ensures var r := Purchase(c, id, quantity, now);
            r.Err? ==> Status(r.error) == if Requested(quantity) >= 1 && id !in c then 404 else 400
    ensures var r := Restock(c, id, quantity, now);
            r.Err? ==> Status(r.error) == if quantity.Some? && quantity.value >= 1 && id !in c then 404 else 400
  {
  }

  /** Leaving the quantity out of a purchase is the same as asking for one item. */
  lemma PurchaseDefaultsToOne(c: Catalog, id: Id, now: int)
    ensures Purchase(c, id, None, now) == Purchase(c, id, Some(1), now)
  {
  }

  /** Restocking what was just bought gives the stock back: only `updatedAt` differs. */
  lemma RestockUndoesPurchase(c: Catalog, id: Id, q: int, t1: int, t2: int)
    requires Purchase(c, id, Some(q), t1).Ok?
    ensures var c1 := Purchase(c, id, Some(q), t1).value.catalog;
            Restock(c1, id, Some(q), t2) == Ok(Change(c[id := c[id].(updatedAt := t2)], c[id].(updatedAt := t2)))
  {
    var c1 := Purchase(c, id, Some(q), t1).value.catalog;
    assert id in c1 && c1[id].quantity == c[id].quantity - q;
    var r := Restock(c1, id, Some(q), t2);
    assert r.Ok?;
    var back := c[id].(updatedAt := t2);
    assert r.value.sweet == back;
    OverwriteTwice(c, id, c1[id], back);
  }

  /** Buying what was just restocked always succeeds and gives the stock back. */
  lemma PurchaseUndoesRestock(c: Catalog, id: Id, q: int, t1: int, t2: int)
    requires WellFormed(c)
    requires Restock(c, id, Some(q), t1).Ok?
    ensures var c1 := Restock(c, id, Some(q), t1).value.catalog;
            Purchase(c1, id, Some(q), t2) == Ok(Change(c[id := c[id].(updatedAt := t2)], c[id].(updatedAt := t2)))
  {
    var c1 := Restock(c, id, Some(q), t1).value.catalog;
    assert WellFormed(c1) && id in c1 && c1[id].quantity == c[id].quantity + q;
    var r := Purchase(c1, id, Some(q), t2);
    assert 1 <= q <= c1[id].quantity;
    var back := c[id].(updatedAt := t2);
    assert r.value.sweet == back;
    OverwriteTwice(c, id, c1[id], back);
  }

  /** Two purchases in a row leave the same stock as one purchase of their sum. */
  lemma PurchasesCompose(c: Catalog, id: Id, a: int, b: int, t1: int, t2: int)
    requires Purchase(c, id, Some(a), t1).Ok?
    requires Purchase(Purchase(c, id, Some(a), t1).value.catalog, id, Some(b), t2).Ok?
    ensures Purchase(c, id, Some(a + b), t2).Ok?
    ensures Purchase(Purchase(c, id, Some(a), t1).value.catalog, id, Some(b), t2)
            == Purchase(c, id, Some(a + b), t2)
  {
    var c1 := Purchase(c, id, Some(a), t1).value.catalog;
    assert id in c1 && c1[id].quantity == c[id].quantity - a;
    var r2 := Purchase(c1, id, Some(b), t2);
    assert 1 <= b <= c1[id].quantity;
    var r := Purchase(c, id, Some(a + b), t2);
    assert 1 <= a + b <= c[id].quantity;
    assert r2.value.sweet == r.value.sweet;
    OverwriteTwice(c, id, c1[id], r.value.sweet);
  }

  /** Any smaller purchase succeeds when a larger one does. */
  lemma PurchaseMonotone(c: Catalog, id: Id, a: int, b: int, now: int)
    requires 1 <= a <= b
    requires Purchase(c, id, Some(b), now).Ok?
    ensures Purchase(c, id, Some(a), now).Ok?
  {
  }
}

=== FILE: responses.dfy ===
/** What a controller answers: the errors it reports with their HTTP status codes, and the
    new catalog with the affected sweet on success. */
module Responses {
  import opened SweetModel
  import opened CatalogStore

  /** The failures the controllers report. Only the kind, and for insufficient stock the
      number of items still available, is modelled; the wording of messages is not. */
  datatype Failure =
    | InvalidQuantity
    | NotFound
    | OutOfStock
    | InsufficientStock(available: int)
    | ValidationFailed(errors: seq<FieldError>)
    | ServerError

  /** The status code each failure is sent with. */
  function Status(f: Failure): (code: int)
    ensures code == 404 <==> f == NotFound
    ensures code == 500 <==> f == ServerError
    ensures code == 400 || code == 404 || code == 500
  {
    match f
    case InvalidQuantity => 400
    case NotFound => 404
    case OutOfStock => 400
    case InsufficientStock(_) => 400
    case ValidationFailed(_) => 400
    case ServerError => 500
  }

  /** A successful write: the catalog after it and the sweet sent back in `data`. */
  datatype Change = Change(catalog: Catalog, sweet: Sweet)
}

=== FILE: scenarios.dfy ===
/** Concrete cases proved about the model: the outcomes the repository's inventory tests expect, the
    not-found answer of the stock handlers, a padded category filter, lengths counted as JavaScript counts them, and one
    end-to-end sequence of create, read, purchase, update and restock on a single sweet. */
module Scenarios {
  import opened Common
  import opened SweetModel
  import opened CatalogStore
  import opened Responses
  import opened InventoryController
  import opened SweetController
  import R = SweetRoutes
  import Text

  /** The sweet every inventory test starts from: ten chocolate bars at 2.99. */
  const Bar := Sweet("Chocolate Bar", Chocolate, 299, 10, None, 0, 0)

  const Shop: Catalog := map[1 := Bar]

  lemma InventoryTests()
    ensures Purchase(Shop, 1, Some(2), 5) == Ok(Change(map[1 := Bar.(quantity := 8, updatedAt := 5)], Bar.(quantity := 8, updatedAt := 5)))
    ensures Purchase(Shop, 1, Some(3), 5).Ok? && Purchase(Shop, 1, Some(3), 5).value.sweet.quantity == 7
    ensures Purchase(Shop, 1, None, 5).Ok?
    ensures Purchase(Shop, 1, Some(1), 5).Ok? && Purchase(Shop, 1, Some(1), 5).value.sweet.quantity == 9
    ensures Purchase(Shop, 1, Some(15), 5) == Err(InsufficientStock(10))
    ensures Purchase(map[1 := Bar.(quantity := 0)], 1, Some(1), 5) == Err(OutOfStock)
    ensures Restock(Shop, 1, Some(20), 5).Ok? && Restock(Shop, 1, Some(20), 5).value.sweet.quantity == 30
    ensures Restock(Shop, 1, Some(15), 5).Ok? && Restock(Shop, 1, Some(15), 5).value.sweet.quantity == 25
    ensures Restock(Shop, 1, None, 5) == Err(InvalidQuantity)
    ensures Restock(Shop, 1, Some(-5), 5) == Err(InvalidQuantity)
  {
    assert Valid(Bar) by {
      assert |Bar.name| == 13;
    }
    assert WellFormed(Shop);
    OverwriteTwice(map[], 1, Bar, Bar.(quantity := 8, updatedAt := 5));
  }

  /** A purchase of an id the catalog does not hold answers 404. */
  lemma PurchaseUnknownId()
    ensures Purchase(Shop, 2, Some(1), 5) == Err(NotFound)
    ensures Status(Purchase(Shop, 2, Some(1), 5).error) == 404
  {
  }

  /** So does a restock of such an id. */
  lemma RestockUnknownId()
    ensures Restock(Shop, 2, Some(5), 5) == Err(NotFound)
    ensures Status(Restock(Shop, 2, Some(5), 5).error) == 404
  {
  }

  /** A category filter with padding finds the chocolate bar: the query is cast through the
      trim setter before the comparison. */
  lemma PaddedCategorySearch()
    ensures Ids(SearchSweets(Shop, SearchParams(None, Some(" chocolate "), None, None))) == {1}
  {
    var p := SearchParams(None, Some(" chocolate "), None, None);
    assert Text.Trim(" chocolate ") == "chocolate";
    assert Select(Shop, p) == Shop;
    SearchKeys(Shop, p);
  }

  /** A one-character name outside the Basic Multilingual Plane is long enough, and 300 such
      characters make a description too long. */
  lemma SurrogatePairs()
    ensures ValidateName(Some("\U{1F36C}")) == None
    ensures ValidateDescription(Some(seq(300, _ => '\U{1F36C}'))) == Some(DescriptionTooLong)
  {
    Text.Utf16LengthCounts("\U{1F36C}");
    var d := seq(300, _ => '\U{1F36C}');
    Text.Utf16LengthCounts(d);
  }

  // An end-to-end sequence on one sweet: create it, read it back, buy some, fail to buy too
  // many, empty it through an update, fail to buy, restock it.

  const GummyBody := Fields(Some("Gummy Bears"), Some("gummy"), Some(199), Some(100), Some("Colorful gummy bears"))

  const Gummies := Sweet("Gummy Bears", Gummy, 199, 100, Some("Colorful gummy bears"), 10, 11)

  /** The body is already trimmed and names an enum value. */
  lemma GummyBodyAccepted()
    ensures Cast(GummyBody) == GummyBody && AcceptableBody(GummyBody)
  {
    assert Text.Trimmed("Gummy Bears") && Text.Trimmed("gummy") && Text.Trimmed("Colorful gummy bears");
    Text.TrimmedFixed("Gummy Bears");
    Text.TrimmedFixed("gummy");
    Text.TrimmedFixed("Colorful gummy bears");
    CategoryRoundTrip(Gummy);
  }

  /** Creation stores the body as sent, stamped with the two clock readings, next to the sweet
      the tests stored before it and into an empty catalog, where the sequence below starts. */
  lemma CreateGummies()
    ensures CreateSweet(Shop, 7, GummyBody, 10, 11) == Ok(Change(Shop[7 := Gummies], Gummies))
    ensures CreateSweet(map[], 7, GummyBody, 10, 11) == Ok(Change(map[7 := Gummies], Gummies))
  {
    GummyBodyAccepted();
    CategoryRoundTrip(Gummy);
    var created := CreateSweet(map[], 7, GummyBody, 10, 11);
    assert created.Ok?;
    var s := created.value.sweet;
    assert CategoryName(s.category) == "gummy";
    assert s.category == Gummy;
    assert s == Gummies;
  }

  const Bought := Gummies.(quantity := 85, updatedAt := 12)

  /** Read it back, buy 15 of 100, fail to buy 1000. */
  lemma GummyPurchases()
    ensures GetSweetById(map[7 := Gummies], 7) == Ok(Gummies)
    ensures Purchase(map[7 := Gummies], 7, Some(15), 12) == Ok(Change(map[7 := Bought], Bought))
    ensures Purchase(map[7 := Bought], 7, Some(1000), 13) == Err(InsufficientStock(85))
  {
    assert WellFormed(map[7 := Gummies]);
    OverwriteTwice(map[], 7, Gummies, Bought);
  }

  const Emptied := Gummies.(quantity := 0, updatedAt := 14)

  /** An admin empties the stock through an update. */
  lemma GummyEmptied()
    ensures UpdateSweet(map[7 := Bought], 7, Fields(None, None, None, Some(0), None), 14)
         == Ok(Change(map[7 := Emptied], Emptied))
  {
    var patch := Fields(None, None, None, Some(0), None);
    assert Assign(FieldsOf(Bought), patch) == FieldsOf(Emptied);
    var r := UpdateSweet(map[7 := Bought], 7, patch, 14);
    assert r.Ok?;
    FieldsOfInjective(r.value.sweet, Emptied);
    OverwriteTwice(map[], 7, Bought, Emptied);
  }

  /** With no stock the next purchase fails, and a restock of 50 refills it. */
  lemma GummyRestock()
    ensures Purchase(map[7 := Emptied], 7, Some(1), 15) == Err(OutOfStock)
    ensures Restock(map[7 := Emptied], 7, Some(50), 16)
         == Ok(Change(map[7 := Emptied.(quantity := 50, updatedAt := 16)], Emptied.(quantity := 50, updatedAt := 16)))
  {
    assert WellFormed(map[7 := Emptied]);
    OverwriteTwice(map[], 7, Emptied, Emptied.(quantity := 50, updatedAt := 16));
  }

  /** Only an admin reaches the restock handler. */
  lemma RestockNeedsAdmin()
    ensures R.Decide(R.Post, ["7", "restock"], Some(R.Customer)) == R.Forbidden
    ensures R.Decide(R.Post, ["7", "restock"], Some(R.Admin)) == R.Dispatch(R.RestockSweet, ["7", "restock"])
  {
    R.DecideFollowsPolicy(R.Post, ["7", "restock"], Some(R.Customer));
    R.DecideFollowsPolicy(R.Post, ["7", "restock"], Some(R.Admin));
  }
}

=== FILE: sweet.dfy ===
/** The Sweet document: its schema rules, the setters and defaults applied when
    fields are assigned, and the save step that validates a document and stamps it. */
module SweetModel {
  import opened Common
  import opened Text

  /** The seven values the schema's category enum admits. */
  datatype Category = Chocolate | Candy | Gummy | Lollipop | Cake | Cookie | Other

  /** The enum value as the schema spells it. */
  function CategoryName(c: Category): string {
    match c
    case Chocolate => "chocolate"
    case Candy => "candy"
    case Gummy => "gummy"
    case Lollipop => "lollipop"
    case Cake => "cake"
    case Cookie => "cookie"
    case Other => "other"
  }

  /** The enum check: only the seven spellings, exactly, are categories. */
  function ParseCategory(s: string): (r: Option<Category>)
    ensures r.Some? ==> CategoryName(r.value) == s
    ensures r.None? ==> forall c: Category :: CategoryName(c) != s
  {
    if s == "chocolate" then Some(Chocolate)
    else if s == "candy" then Some(Candy)
    else if s == "gummy" then Some(Gummy)
    else if s == "lollipop" then Some(Lollipop)
    else if s == "cake" then Some(Cake)
    else if s == "cookie" then Some(Cookie)
    else if s == "other" then Some(Other)
    else None
  }

  lemma CategoryRoundTrip(c: Category)
    ensures ParseCategory(CategoryName(c)) == Some(c)
  {
  }

  // String lengths are JavaScript's: UTF-16 code units (Text.Utf16Length).
  const MinNameLength := 2
  const MaxDescriptionLength := 500
  const DefaultQuantity := 0

  /** The five user-settable paths of a document, as they appear in a request body or in a
      document being saved. `None` is a key that is absent (undefined). Prices are in cents. */
  datatype Fields = Fields(
    name: Option<string>,
    category: Option<string>,
    price: Option<int>,
    quantity: Option<int>,
    description: Option<string>)

  datatype Path = NamePath | CategoryPath | PricePath | QuantityPath | DescriptionPath

  /** One failed validator; the schema reports at most one per path. */
  datatype FieldError =
    | NameRequired | NameTooShort
    | CategoryRequired | CategoryInvalid
    | PriceRequired | PriceNegative
    | QuantityRequired | QuantityNegative
    | DescriptionTooLong
  {
    function PathOf(): Path {
      match this
      case NameRequired | NameTooShort => NamePath
      case CategoryRequired | CategoryInvalid => CategoryPath
      case PriceRequired | PriceNegative => PricePath
      case QuantityRequired | QuantityNegative => QuantityPath
      case DescriptionTooLong => DescriptionPath
    }
  }

  // The field rules, each stated on the value the document holds when it is saved.

  predicate NameOk(v: Option<string>) { v.Some? && Utf16Length(v.value) >= MinNameLength }
  predicate CategoryOk(v: Option<string>) { v.Some? && exists c: Category :: CategoryName(c) == v.value }
  predicate PriceOk(v: Option<int>) { v.Some? && v.value >= 0 }
  predicate QuantityOk(v: Option<int>) { v.Some? && v.value >= 0 }
  predicate DescriptionOk(v: Option<string>) { v.Some? ==> Utf16Length(v.value) <= MaxDescriptionLength }

  predicate Acceptable(doc: Fields) {
    && NameOk(doc.name)
    && CategoryOk(doc.category)
    && PriceOk(doc.price)
    && QuantityOk(doc.quantity)
    && DescriptionOk(doc.description)
  }

  /** The paths whose rule `doc` breaks. */
  function Violations(doc: Fields): set<Path> {
    (if NameOk(doc.name) then {} else {NamePath})
    + (if CategoryOk(doc.category) then {} else {CategoryPath})
    + (if PriceOk(doc.price) then {} else {PricePath})
    + (if QuantityOk(doc.quantity) then {} else {QuantityPath})
    + (if DescriptionOk(doc.description) then {} else {DescriptionPath})
  }

  // The validators of each path, run in declaration order; the first that fails is reported.
  // Only `required` looks at an absent value, and for strings it also rejects "".

  function ValidateName(v: Option<string>): (e: Option<FieldError>)
    ensures e.None? <==> NameOk(v)
    ensures e.Some? ==> e.value.PathOf() == NamePath
    ensures e == Some(NameRequired) <==> v.None? || v.value == ""
  {
    if v.None? || v.value == "" then Some(NameRequired)
    else if Utf16Length(v.value) < MinNameLength then Some(NameTooShort)
    else None
  }

  function ValidateCategory(v: Option<string>): (e: Option<FieldError>)
    ensures e.None? <==> CategoryOk(v)
    ensures e.Some? ==> e.value.PathOf() == CategoryPath
    ensures e == Some(CategoryRequired) <==> v.None? || v.value == ""
  {
    if v.None? || v.value == "" then Some(CategoryRequired)
    else if ParseCategory(v.value).None? then Some(CategoryInvalid)
    else None
  }

  function ValidatePrice(v: Option<int>): (e: Option<FieldError>)
    ensures e.None? <==> PriceOk(v)
    ensures e.Some? ==> e.value.PathOf() == PricePath
    ensures e == Some(PriceRequired) <==> v.None?
  {
    if v.None? then Some(PriceRequired)
    else if v.value < 0 then Some(PriceNegative)
    else None
  }

  function ValidateQuantity(v: Option<int>): (e: Option<FieldError>)
    ensures e.None? <==> QuantityOk(v)
    ensures e.Some? ==> e.value.PathOf() == QuantityPath
    ensures e == Some(QuantityRequired) <==> v.None?
  {
    if v.None? then Some(QuantityRequired)
    else if v.value < 0 then Some(QuantityNegative)
    else None
  }

  function ValidateDescription(v: Option<string>): (e: Option<FieldError>)
    ensures e.None? <==> DescriptionOk(v)
    ensures e.Some? ==> e.value == DescriptionTooLong
  {
    if v.Some? && Utf16Length(v.value) > MaxDescriptionLength then Some(DescriptionTooLong) else None
  }

  function Present(e: Option<FieldError>): seq<FieldError> {
    if e.Some? then [e.value] else []
  }

  /** Validation of a whole document: every path is validated and every failure is kept,
      so the caller sees all broken rules, not only the first. */
  function Check(doc: Fields): (errs: seq<FieldError>)
    ensures errs == [] <==> Acceptable(doc)
    ensures forall e :: e in errs ==> e.PathOf() in Violations(doc)
    ensures forall p :: p in Violations(doc) ==> exists e :: e in errs && e.PathOf() == p
    ensures forall i, j :: 0 <= i < j < |errs| ==> errs[i].PathOf() != errs[j].PathOf()
  {
    AllErrorsSound(doc);
    AllErrorsCover(doc);
    AllErrorsOnePerPath(doc);
    AllErrors(doc)
  }

  function Rank(p: Path): nat {
    match p
    case NamePath => 0
    case CategoryPath => 1
    case PricePath => 2
    case QuantityPath => 3
    case DescriptionPath => 4
  }

  /** The errors come in schema order, hence at most one per path. */
  lemma AllErrorsOnePerPath(doc: Fields)
    ensures forall i, j :: 0 <= i < j < |AllErrors(doc)| ==> Rank(AllErrors(doc)[i].PathOf()) < Rank(AllErrors(doc)[j].PathOf())
  {
    var n, c, p, q, d := ValidateName(doc.name), ValidateCategory(doc.category), ValidatePrice(doc.price),
      ValidateQuantity(doc.quantity), ValidateDescription(doc.description);
    var tail := Present(d);
    tail := AppendLater(Present(q), tail, 3);
    tail := AppendLater(Present(p), tail, 2);
    tail := AppendLater(Present(c), tail, 1);
    tail := AppendLater(Present(n), tail, 0);
    assert tail == AllErrors(doc);
  }

  /** Prepending errors of rank `r` to a rank-ordered list of errors of higher rank keeps it ordered. */
  lemma AppendLater(a: seq<FieldError>, b: seq<FieldError>, r: nat) returns (ab: seq<FieldError>)
    requires |a| <= 1 && forall e :: e in a ==> Rank(e.PathOf()) == r
    requires forall e :: e in b ==> Rank(e.PathOf()) > r
    requires forall i, j :: 0 <= i < j < |b| ==> Rank(b[i].PathOf()) < Rank(b[j].PathOf())
    ensures ab == a + b
    ensures forall e :: e in ab ==> Rank(e.PathOf()) >= r
    ensures forall i, j :: 0 <= i < j < |ab| ==> Rank(ab[i].PathOf()) < Rank(ab[j].PathOf())
  {
    ab := a + b;
    forall i, j | 0 <= i < j < |ab|
      ensures Rank(ab[i].PathOf()) < Rank(ab[j].PathOf())
    {
      if i < |a| {
        assert ab[j] in b;
      } else {
        assert ab[i] == b[i - |a|] && ab[j] == b[j - |a|];
      }
    }
  }

  function AllErrors(doc: Fields): seq<FieldError> {
    Present(ValidateName(doc.name))
    + (Present(ValidateCategory(doc.category))
       + (Present(ValidatePrice(doc.price))
          + (Present(ValidateQuantity(doc.quantity))
             + Present(ValidateDescription(doc.description)))))
  }

  /** Only broken rules are reported, so an acceptable document yields no error. */
  lemma AllErrorsSound(doc: Fields)
    ensures AllErrors(doc) == [] <==> Acceptable(doc)
    ensures forall e :: e in AllErrors(doc) ==> e.PathOf() in Violations(doc)
  {
    var n, c, p, q, d := ValidateName(doc.name), ValidateCategory(doc.category), ValidatePrice(doc.price),
      ValidateQuantity(doc.quantity), ValidateDescription(doc.description);
    forall e | e in AllErrors(doc)
      ensures e.PathOf() in Violations(doc)
    {
      if e in Present(n) {
      } else if e in Present(c) {
      } else if e in Present(p) {
      } else if e in Present(q) {
      } else {
        assert e in Present(d);
      }
    }
  }

  /** Every broken rule shows up in the aggregated list. */
  lemma AllErrorsCover(doc: Fields)
    ensures forall p :: p in Violations(doc) ==> exists e :: e in AllErrors(doc) && e.PathOf() == p
  {
    forall p | p in Violations(doc)
      ensures exists e :: e in AllErrors(doc) && e.PathOf() == p
    {
      var e := Reported(doc, p);
    }
  }

  /** The error reported for a broken path. */
  lemma Reported(doc: Fields, p: Path) returns (e: FieldError)
    requires p in Violations(doc)
    ensures e in AllErrors(doc) && e.PathOf() == p
  {
    match p
    case NamePath => e := ValidateName(doc.name).value;
    case CategoryPath => e := ValidateCategory(doc.category).value;
    case PricePath => e := ValidatePrice(doc.price).value;
    case QuantityPath => e := ValidateQuantity(doc.quantity).value;
    case DescriptionPath => e := ValidateDescription(doc.description).value;
  }

  /** The `trim: true` setter, applied whenever a string path is assigned. */
  function TrimOpt(v: Option<string>): Option<string> {
    if v.Some? then Some(Trim(v.value)) else None
  }

  predicate TrimmedOpt(v: Option<string>) {
    v.Some? ==> Trimmed(v.value)
  }

  /** The string paths of `doc` hold trimmed values. */
  predicate TrimmedDoc(doc: Fields) {
    TrimmedOpt(doc.name) && TrimmedOpt(doc.category) && TrimmedOpt(doc.description)
  }

  /** A new document built from a request body: setters trim the string paths and the
      quantity default applies when the key is absent. */
  function Cast(body: Fields): (doc: Fields)
    ensures TrimmedDoc(doc)
    ensures doc.quantity == if body.quantity.None? then Some(DefaultQuantity) else body.quantity
    ensures doc.price == body.price
    ensures doc.name == TrimOpt(body.name) && doc.category == TrimOpt(body.category)
    ensures doc.description == TrimOpt(body.description)
  {
    TrimOptTrimmed(body.name);
    TrimOptTrimmed(body.category);
    TrimOptTrimmed(body.description);
    Fields(
      TrimOpt(body.name),
      TrimOpt(body.category),
      body.price,
      if body.quantity.None? then Some(DefaultQuantity) else body.quantity,
      TrimOpt(body.description))
  }

  lemma TrimOptTrimmed(v: Option<string>)
    ensures TrimmedOpt(TrimOpt(v))
  {
    if v.Some? {
      TrimFixpoint(v.value);
    }
  }

  /** Assignment of the keys present in `patch` onto an existing document, through the same
      setters; absent keys leave the document's value in place. No default is re-applied. */
  function Assign(doc: Fields, patch: Fields): (r: Fields)
    ensures TrimmedDoc(doc) ==> TrimmedDoc(r)
  {
    TrimOptTrimmed(patch.name);
    TrimOptTrimmed(patch.category);
    TrimOptTrimmed(patch.description);
    Fields(
      if patch.name.Some? then TrimOpt(patch.name) else doc.name,
      if patch.category.Some? then TrimOpt(patch.category) else doc.category,
      if patch.price.Some? then patch.price else doc.price,
      if patch.quantity.Some? then patch.quantity else doc.quantity,
      if patch.description.Some? then TrimOpt(patch.description) else doc.description)
  }

  /** A stored sweet. Timestamps are readings of the clock. */
  datatype Sweet = Sweet(
    name: string,
    category: Category,
    price: int,
    quantity: int,
    description: Option<string>,
    createdAt: int,
    updatedAt: int)

  /** The schema's rules on a stored sweet. */
  predicate Valid(s: Sweet) {
    && Utf16Length(s.name) >= MinNameLength
    && s.price >= 0
    && s.quantity >= 0
    && (s.description.Some? ==> Utf16Length(s.description.value) <= MaxDescriptionLength)
  }

  /** The string paths a user typed are stored trimmed (the category is an enum value). */
  predicate Normalized(s: Sweet) {
    Trimmed(s.name) && TrimmedOpt(s.description)
  }

  /** The user-settable paths of a stored sweet, as a document. */
  function FieldsOf(s: Sweet): Fields {
    Fields(Some(s.name), Some(CategoryName(s.category)), Some(s.price), Some(s.quantity), s.description)
  }

  /** The document of a normalized sweet holds trimmed strings only. */
  lemma NormalizedDoc(s: Sweet)
    requires Normalized(s)
    ensures TrimmedDoc(FieldsOf(s))
  {
    match s.category
    case Chocolate =>
    case Candy =>
    case Gummy =>
    case Lollipop =>
    case Cake =>
    case Cookie =>
    case Other =>
  }

  /** The schema rules on documents and the Valid predicate on sweets agree. */
  lemma ValidIffAcceptable(s: Sweet)
    ensures Valid(s) <==> Acceptable(FieldsOf(s))
  {
  }

  /** `save()`: validation first; on success the pre-save hook stamps `updatedAt` with the
      clock and the document is stored as it is. `createdAt` is whatever the document had. */
  function Save(doc: Fields, createdAt: int, now: int): (r: Result<Sweet, seq<FieldError>>)
    ensures r.Ok? <==> Acceptable(doc)
    ensures r.Err? ==> r.error == Check(doc) && r.error != []
    ensures r.Ok? ==> Valid(r.value) && FieldsOf(r.value) == doc
    ensures r.Ok? && TrimmedDoc(doc) ==> Normalized(r.value)
    ensures r.Ok? ==> r.value.createdAt == createdAt && r.value.updatedAt == now
  {
    var errs := Check(doc);
    if errs != [] then Err(errs)
    else
      Ok(Sweet(doc.name.value, ParseCategory(doc.category.value).value, doc.price.value,
               doc.quantity.value, doc.description, createdAt, now))
  }

  /** A sweet is determined by its document and its two timestamps. */
  lemma FieldsOfInjective(a: Sweet, b: Sweet)
    requires FieldsOf(a) == FieldsOf(b)
    requires a.createdAt == b.createdAt && a.updatedAt == b.updatedAt
    ensures a == b
  {
    CategoryRoundTrip(a.category);
    CategoryRoundTrip(b.category);
  }

  /** Saving a stored sweet whose stock was set to `stock` succeeds exactly when the result is
      still valid, and then yields that sweet with a fresh `updatedAt`. */
  lemma SaveStock(s: Sweet, stock: int, now: int)
    ensures var r := Save(FieldsOf(s).(quantity := Some(stock)), s.createdAt, now);
            (r.Ok? <==> Valid(s.(quantity := stock)))
            && (r.Ok? ==> r.value == s.(quantity := stock, updatedAt := now))
  {
    var t := s.(quantity := stock);
    assert FieldsOf(s).(quantity := Some(stock)) == FieldsOf(t);
    ValidIffAcceptable(t);
    var r := Save(FieldsOf(t), s.createdAt, now);
    if r.Ok? {
      FieldsOfInjective(r.value, t.(updatedAt := now));
    }
  }

  /** Saving a valid sweet unchanged succeeds and only refreshes `updatedAt`. */
  lemma SaveValid(s: Sweet, now: int)
    requires Valid(s)
    ensures Save(FieldsOf(s), s.createdAt, now) == Ok(s.(updatedAt := now))
  {
    CategoryRoundTrip(s.category);
  }

  /** A request body the schema accepts on creation, stated on the raw body: the name trims to
      at least two UTF-16 code units, the trimmed category is an enum value, the price is present and
      non-negative, the quantity is absent or non-negative, the trimmed description fits. */
  predicate AcceptableBody(body: Fields) {
    && body.name.Some? && Utf16Length(Trim(body.name.value)) >= MinNameLength
    && body.category.Some? && ParseCategory(Trim(body.category.value)).Some?
    && body.price.Some? && body.price.value >= 0
    && (body.quantity.None? || body.quantity.value >= 0)
    && (body.description.Some? ==> Utf16Length(Trim(body.description.value)) <= MaxDescriptionLength)
  }

  lemma CastAcceptable(body: Fields)
    ensures Acceptable(Cast(body)) <==> AcceptableBody(body)
  {
  }
}

=== FILE: sweet_controller.dfy ===
/** The catalog operations behind the sweets routes, as pure functions of the catalog.
    A failure carries no catalog: the stored one is left as it was. */
module SweetController {
  import opened Common
  import opened Text
  import opened SweetModel
  import opened CatalogStore
  import opened Responses

  /** POST /. The body's five keys make a new document (setters and defaults applied), which is
      validated and saved under the fresh id the database assigns. All broken rules are reported
      together. The clock is read twice: `created` when the document is built (the path default)
      and `now` in the pre-save hook. */
  function CreateSweet(c: Catalog, id: Id, body: Fields, created: int, now: int): (r: Result<Change, Failure>)
    requires id !in c
    ensures r.Ok? <==> AcceptableBody(body)
    ensures r.Err? ==> r.error == ValidationFailed(Check(Cast(body)))
    ensures r.Ok? ==> r.value.catalog == c[id := r.value.sweet]
    ensures r.Ok? ==> var s := r.value.sweet;
              && s.name == Trim(body.name.value)
              && CategoryName(s.category) == Trim(body.category.value)
              && s.price == body.price.value
              && s.quantity == (if body.quantity.None? then DefaultQuantity else body.quantity.value)
              && s.description == TrimOpt(body.description)
              && s.createdAt == created && s.updatedAt == now
    ensures WellFormed(c) && r.Ok? ==> WellFormed(r.value.catalog)
  {
    CastAcceptable(body);
    match Save(Cast(body), created, now)
    case Err(errs) => Err(ValidationFailed(errs))
    case Ok(s) =>
      assert WellFormed(c) ==> WellFormed(c[id := s]) by {
        if WellFormed(c) {
          WellFormedStore(c, id, s);
        }
      }
      Ok(Change(c[id := s], s))
  }

  /** GET /. Every sweet, newest first. */
  function ListSweets(c: Catalog): (r: seq<Entry>)
    ensures Lists(r, c)
  {
    NewestFirst(c)
  }

  /** The query string of GET /search. An empty string is falsy, so `name=` and `category=`
      impose nothing; price bounds are in cents. */
  datatype SearchParams = SearchParams(
    name: Option<string>,
    category: Option<string>,
    minPrice: Option<int>,
    maxPrice: Option<int>)

  const NoFilters := SearchParams(None, None, None, None)

  /** A query string parameter counts only when it is present and non-empty. */
  predicate Supplied(v: Option<string>) {
    v.Some? && v.value != ""
  }

  /** The query the controller builds: the name as a case-insensitive pattern, the category
      cast through the path's trim setter and then compared exactly, the price between inclusive
      bounds; absent filters constrain nothing. Whether a filter is supplied is decided on the
      raw parameter, before the cast. */
  predicate Matches(s: Sweet, p: SearchParams) {
    && (Supplied(p.name) ==> ContainsIgnoreCase(s.name, p.name.value))
    && (Supplied(p.category) ==> CategoryName(s.category) == Trim(p.category.value))
    && (p.minPrice.Some? ==> s.price >= p.minPrice.value)
    && (p.maxPrice.Some? ==> s.price <= p.maxPrice.value)
  }

  /** The documents `find(query)` selects. */
  function Select(c: Catalog, p: SearchParams): (r: Catalog)
    ensures forall id :: id in r <==> id in c && Matches(c[id], p)
    ensures forall id :: id in r ==> r[id] == c[id]
  {
    map id | id in c && Matches(c[id], p) :: c[id]
  }

  /** GET /search. The sweets satisfying every supplied filter, newest first. */
  function SearchSweets(c: Catalog, p: SearchParams): (r: seq<Entry>)
    ensures forall i :: 0 <= i < |r| ==> r[i].id in c && r[i].sweet == c[r[i].id] && Matches(r[i].sweet, p)
    ensures forall id :: id in c && Matches(c[id], p) ==> id in Ids(r)
    ensures Ordered(r)
  {
    var r := NewestFirst(Select(c, p));
    assert forall id :: id in c && Matches(c[id], p) ==> id in Ids(r) by {
      forall id | id in c && Matches(c[id], p) ensures id in Ids(r) {
        assert id in Select(c, p).Keys;
      }
    }
    r
  }

  /** GET /:id. */
  function GetSweetById(c: Catalog, id: Id): (r: Result<Sweet, Failure>)
    ensures r.Ok? <==> id in c
    ensures r.Ok? ==> r.value == c[id]
    ensures r.Err? ==> r.error == NotFound
  {
    if id in c then Ok(c[id]) else Err(NotFound)
  }

  /** PUT /:id. Every key present in the body overwrites its path, falsy values included; absent
      keys keep the stored value. The result is validated again on save. */
  function UpdateSweet(c: Catalog, id: Id, patch: Fields, now: int): (r: Result<Change, Failure>)
    ensures id !in c ==> r == Err(NotFound)
    ensures id in c ==> (r.Ok? <==> Acceptable(Assign(FieldsOf(c[id]), patch)))
    ensures id in c && r.Err? ==> r.error == ValidationFailed(Check(Assign(FieldsOf(c[id]), patch)))
    ensures r.Ok? ==> id in c && r.value.catalog == c[id := r.value.sweet]
    ensures r.Ok? ==> var prev, s := c[id], r.value.sweet;
              && s.name == (if patch.name.Some? then Trim(patch.name.value) else prev.name)
              && CategoryName(s.category)
                 == (if patch.category.Some? then Trim(patch.category.value) else CategoryName(prev.category))
              && s.price == (if patch.price.Some? then patch.price.value else prev.price)
              && s.quantity == (if patch.quantity.Some? then patch.quantity.value else prev.quantity)
              && s.description == (if patch.description.Some? then TrimOpt(patch.description) else prev.description)
              && s.createdAt == prev.createdAt && s.updatedAt == now
    ensures WellFormed(c) && r.Ok? ==> WellFormed(r.value.catalog)
  {
    if id !in c then Err(NotFound)
    else
      var prev := c[id];
      var doc := Assign(FieldsOf(prev), patch);
      match Save(doc, prev.createdAt, now)
      case Err(errs) => Err(ValidationFailed(errs))
      case Ok(s) =>
        assert WellFormed(c) ==> WellFormed(c[id := s]) by {
          if WellFormed(c) {
            NormalizedDoc(prev);
            WellFormedStore(c, id, s);
          }
        }
        Ok(Change(c[id := s], s))
  }

  /** DELETE /:id. */
  function DeleteSweet(c: Catalog, id: Id): (r: Result<Catalog, Failure>)
    ensures id !in c ==> r == Err(NotFound)
    ensures id in c ==> r.Ok?
    ensures r.Ok? ==> r.value.Keys == c.Keys - {id}
    ensures r.Ok? ==> forall k :: k in r.value ==> r.value[k] == c[k]
    ensures WellFormed(c) && r.Ok? ==> WellFormed(r.value)
  {
    if id !in c then Err(NotFound) else Ok(c - {id})
  }

  // Properties relating the operations to each other.

  /** The ids a search returns are exactly those of the matching sweets. */
  lemma SearchIds(c: Catalog, p: SearchParams)
    ensures forall id :: id in Ids(SearchSweets(c, p)) <==> id in c && Matches(c[id], p)
  {
    var r := SearchSweets(c, p);
    forall id | id in Ids(r) ensures id in c && Matches(c[id], p) {
      var i :| 0 <= i < |r| && r[i].id == id;
    }
  }

  /** A search without filters is the plain listing. */
  lemma SearchWithoutFiltersIsList(c: Catalog)
    ensures SearchSweets(c, NoFilters) == ListSweets(c)
  {
    var all := Select(c, NoFilters);
    assert all.Keys == c.Keys;
    assert all == c;
  }

  /** The search restricted to the name filter only, the category filter only, the price
      bounds only. */
  function NameOnly(p: SearchParams): SearchParams { SearchParams(p.name, None, None, None) }
  function CategoryOnly(p: SearchParams): SearchParams { SearchParams(None, p.category, None, None) }
  function PriceOnly(p: SearchParams): SearchParams { SearchParams(None, None, p.minPrice, p.maxPrice) }

  lemma MatchesSplit(s: Sweet, p: SearchParams)
    ensures Matches(s, p) <==> Matches(s, NameOnly(p)) && Matches(s, CategoryOnly(p)) && Matches(s, PriceOnly(p))
  {
  }

  /** The filters are conjunctive: a search returns the sweets every single filter returns. */
  lemma SearchConjunctive(c: Catalog, p: SearchParams)
    ensures Ids(SearchSweets(c, p))
            == Ids(SearchSweets(c, NameOnly(p))) * Ids(SearchSweets(c, CategoryOnly(p))) * Ids(SearchSweets(c, PriceOnly(p)))
  {
    SearchKeys(c, p);
    SearchKeys(c, NameOnly(p));
    SearchKeys(c, CategoryOnly(p));
    SearchKeys(c, PriceOnly(p));
    forall id ensures id in Select(c, p) <==> id in Select(c, NameOnly(p)) && id in Select(c, CategoryOnly(p)) && id in Select(c, PriceOnly(p)) {
      if id in c {
        MatchesSplit(c[id], p);
      }
    }
  }

  lemma SearchKeys(c: Catalog, p: SearchParams)
    ensures Ids(SearchSweets(c, p)) == Select(c, p).Keys
  {
  }

  /** `q` keeps every filter of `p` and possibly adds more: the same name and category when `p`
      supplies them, price bounds at least as tight. */
  predicate Narrows(q: SearchParams, p: SearchParams) {
    && (Supplied(p.name) ==> q.name == p.name)
    && (Supplied(p.category) ==> q.category == p.category)
    && (p.minPrice.Some? ==> q.minPrice.Some? && q.minPrice.value >= p.minPrice.value)
    && (p.maxPrice.Some? ==> q.maxPrice.Some? && q.maxPrice.value <= p.maxPrice.value)
  }

  /** Adding or tightening a filter never enlarges the result. */
  lemma SearchNarrowing(c: Catalog, p: SearchParams, q: SearchParams)
    requires Narrows(q, p)
    ensures Ids(SearchSweets(c, q)) <= Ids(SearchSweets(c, p))
  {
    SearchIds(c, p);
    SearchIds(c, q);
  }

  /** A created sweet can be read back by its id. */
  lemma GetAfterCreate(c: Catalog, id: Id, body: Fields, created: int, now: int)
    requires id !in c
    requires AcceptableBody(body)
    ensures GetSweetById(CreateSweet(c, id, body, created, now).value.catalog, id)
            == Ok(CreateSweet(c, id, body, created, now).value.sweet)
  {
  }

  /** Deleting the sweet just created restores the catalog. */
  lemma DeleteUndoesCreate(c: Catalog, id: Id, body: Fields, created: int, now: int)
    requires id !in c
    requires AcceptableBody(body)
    ensures DeleteSweet(CreateSweet(c, id, body, created, now).value.catalog, id) == Ok(c)
  {
    var change := CreateSweet(c, id, body, created, now).value;
    RemoveAfterStore(c, id, change.sweet);
  }

  /** After a delete the id is gone and every other read is unaffected. */
  lemma GetAfterDelete(c: Catalog, id: Id, other: Id)
    requires DeleteSweet(c, id).Ok?
    ensures GetSweetById(DeleteSweet(c, id).value, id) == Err(NotFound)
    ensures other != id ==> GetSweetById(DeleteSweet(c, id).value, other) == GetSweetById(c, other)
  {
  }

  /** An update with no keys re-saves the stored sweet: only `updatedAt` changes. */
  lemma UpdateWithoutKeys(c: Catalog, id: Id, now: int)
    requires WellFormed(c) && id in c
    ensures UpdateSweet(c, id, Fields(None, None, None, None, None), now)
            == Ok(Change(c[id := c[id].(updatedAt := now)], c[id].(updatedAt := now)))
  {
    var prev := c[id];
    var r := UpdateSweet(c, id, Fields(None, None, None, None, None), now);
    ValidIffAcceptable(prev);
    assert Assign(FieldsOf(prev), Fields(None, None, None, None, None)) == FieldsOf(prev);
    FieldsOfInjective(r.value.sweet, prev.(updatedAt := now));
  }

  /** Sending the same update twice changes nothing more than sending it once. */
  lemma UpdateIdempotent(c: Catalog, id: Id, patch: Fields, t1: int, t2: int)
    requires UpdateSweet(c, id, patch, t1).Ok?
    ensures var first := UpdateSweet(c, id, patch, t1).value;
            UpdateSweet(first.catalog, id, patch, t2)
            == Ok(Change(c[id := first.sweet.(updatedAt := t2)], first.sweet.(updatedAt := t2)))
  {
    var first := UpdateSweet(c, id, patch, t1).value;
    var c1 := first.catalog;
    var s1 := first.sweet;
    var r := UpdateSweet(c1, id, patch, t2);
    assert Assign(FieldsOf(s1), patch) == FieldsOf(s1) by {
      TrimOptTrimmed(patch.name);
      TrimOptTrimmed(patch.category);
      TrimOptTrimmed(patch.description);
      if patch.name.Some? { TrimFixpoint(patch.name.value); }
      if patch.category.Some? { TrimFixpoint(patch.category.value); }
      if patch.description.Some? { TrimFixpoint(patch.description.value); }
    }
    ValidIffAcceptable(s1);
    FieldsOfInjective(r.value.sweet, s1.(updatedAt := t2));
    OverwriteTwice(c, id, s1, s1.(updatedAt := t2));
  }

  /** A sweet created later than everything in the catalog heads the listing. */
  lemma CreatedListedFirst(c: Catalog, id: Id, body: Fields, created: int, now: int)
    requires id !in c
    requires forall k :: k in c ==> c[k].createdAt < created
    requires AcceptableBody(body)
    ensures var r := ListSweets(CreateSweet(c, id, body, created, now).value.catalog);
            r != [] && r[0] == Entry(id, CreateSweet(c, id, body, created, now).value.sweet)
  {
    var change := CreateSweet(c, id, body, created, now).value;
    InsertNewest(c, id, change.sweet);
  }
}

=== FILE: sweet_routes.dfy ===
/** The sweets router: an ordered table of routes, each a verb, a path pattern, a chain of
    middleware and a controller. A request is served by the first route that matches it; its
    middleware run in order and the first that rejects answers the request. */
module SweetRoutes {
  import opened Common
  import opened Text

  datatype Verb = Get | Post | Put | Delete

  /** The role of an authenticated caller. */
  datatype Role = Customer | Admin

  /** A path segment of a route pattern: a literal, or the `:id` parameter. */
  datatype Segment = Literal(text: string) | IdParam

  /** `authenticate` rejects a request without a verified caller with 401; `isAdmin` rejects
      a caller that is not an admin with 403. */
  datatype Guard = Authenticate | IsAdmin

  datatype Handler =
    | CreateSweet | GetAllSweets | SearchSweets | PurchaseSweet
    | RestockSweet | GetSweetById | UpdateSweet | DeleteSweet

  datatype Route = Route(verb: Verb, pattern: seq<Segment>, guards: seq<Guard>, handler: Handler)

  /** The routes in the order the router declares them, paths relative to /api/sweets. */
  const Routes: seq<Route> := [
    Route(Post, [], [Authenticate, IsAdmin], CreateSweet),
    Route(Get, [], [Authenticate], GetAllSweets),
    Route(Get, [Literal("search")], [Authenticate], SearchSweets),
    Route(Post, [IdParam, Literal("purchase")], [Authenticate], PurchaseSweet),
    Route(Post, [IdParam, Literal("restock")], [Authenticate, IsAdmin], RestockSweet),
    Route(Get, [IdParam], [Authenticate], GetSweetById),
    Route(Put, [IdParam], [Authenticate, IsAdmin], UpdateSweet),
    Route(Delete, [IdParam], [Authenticate, IsAdmin], DeleteSweet)
  ]

  /** Literal segments match without regard to case, as routes do by default; the parameter
      matches any non-empty segment. */
  predicate SegmentMatches(seg: Segment, part: string) {
    match seg
    case Literal(t) => LowerString(part) == LowerString(t)
    case IdParam => part != []
  }

  predicate RouteMatches(route: Route, verb: Verb, path: seq<string>) {
    && route.verb == verb
    && |route.pattern| == |path|
    && forall i :: 0 <= i < |path| ==> SegmentMatches(route.pattern[i], path[i])
  }

  /** The position of the first route of `table[from..]` that matches the request. */
  function FirstMatch(table: seq<Route>, verb: Verb, path: seq<string>, from: nat): (r: Option<nat>)
    requires from <= |table|
    ensures r.Some? ==> from <= r.value < |table| && RouteMatches(table[r.value], verb, path)
    ensures r.Some? ==> forall j :: from <= j < r.value ==> !RouteMatches(table[j], verb, path)
    ensures r.None? ==> forall j :: from <= j < |table| ==> !RouteMatches(table[j], verb, path)
    decreases |table| - from
  {
    if from == |table| then None
    else if RouteMatches(table[from], verb, path) then Some(from)
    else FirstMatch(table, verb, path, from + 1)
  }

  /** What the router does with a request. */
  datatype Decision =
    | Unauthorized
    | Forbidden
    | Dispatch(handler: Handler, path: seq<string>)
    | NoRoute

  /** The status the router itself answers with; a dispatched request gets its status from the
      handler. */
  function DecisionStatus(d: Decision): Option<int> {
    match d
    case Unauthorized => Some(401)
    case Forbidden => Some(403)
    case Dispatch(_, _) => None
    case NoRoute => Some(404)
  }

  /** The answer of the first guard of the chain that rejects `caller`, if any. */
  function RunGuards(guards: seq<Guard>, caller: Option<Role>): (r: Option<Decision>)
    ensures r.Some? ==> r.value == Unauthorized || r.value == Forbidden
  {
    if guards == [] then None
    else match guards[0]
      case Authenticate => if caller.None? then Some(Unauthorized) else RunGuards(guards[1..], caller)
      case IsAdmin => if caller != Some(Admin) then Some(Forbidden) else RunGuards(guards[1..], caller)
  }

  /** The router's decision for a request by `caller` (None when no valid token came with it). */
  function Decide(verb: Verb, path: seq<string>, caller: Option<Role>): Decision {
    match FirstMatch(Routes, verb, path, 0)
    case None => NoRoute
    case Some(i) =>
      match RunGuards(Routes[i].guards, caller)
      case Some(rejection) => rejection
      case None => Dispatch(Routes[i].handler, path)
  }

  // The access policy, stated independently of the table.

  /** The handlers that change the catalog's contents: admins only. */
  predicate AdminOnly(h: Handler) {
    h == CreateSweet || h == UpdateSweet || h == DeleteSweet || h == RestockSweet
  }

  /** The handler a request reaches, read off the verb and the shape of the path. */
  function Target(verb: Verb, path: seq<string>): Option<Handler> {
    if path == [] then
      (if verb == Post then Some(CreateSweet) else if verb == Get then Some(GetAllSweets) else None)
    else if |path| == 1 && path[0] != [] then
      (if verb == Get then (if LowerString(path[0]) == "search" then Some(SearchSweets) else Some(GetSweetById))
       else if verb == Put then Some(UpdateSweet)
       else if verb == Delete then Some(DeleteSweet)
       else None)
    else if |path| == 2 && path[0] != [] && verb == Post then
      (if LowerString(path[1]) == "purchase" then Some(PurchaseSweet)
       else if LowerString(path[1]) == "restock" then Some(RestockSweet)
       else None)
    else None
  }

  /** Authentication first, then the admin check for admin-only handlers. */
  function Policy(verb: Verb, path: seq<string>, caller: Option<Role>): Decision {
    match Target(verb, path)
    case None => NoRoute
    case Some(h) =>
      if caller.None? then Unauthorized
      else if AdminOnly(h) && caller != Some(Admin) then Forbidden
      else Dispatch(h, path)
  }

  lemma LowerLiterals()
    ensures LowerString("search") == "search"
    ensures LowerString("purchase") == "purchase"
    ensures LowerString("restock") == "restock"
  {
  }

  /** The first matching route of the table is the one the verb and the path shape select. */
  lemma FirstMatchIsTarget(verb: Verb, path: seq<string>)
    ensures var m := FirstMatch(Routes, verb, path, 0);
            && (m.None? <==> Target(verb, path).None?)
            && (m.Some? ==> Target(verb, path) == Some(Routes[m.value].handler))
  {
    var m := FirstMatch(Routes, verb, path, 0);
    if m.Some? {
      MatchedIsTarget(verb, path, m.value);
    } else {
      UnmatchedHasNoTarget(verb, path);
    }
  }

  /** The handler of the first route that matches is the target. */
  lemma MatchedIsTarget(verb: Verb, path: seq<string>, i: nat)
    requires i < |Routes| && RouteMatches(Routes[i], verb, path)
    requires forall j :: 0 <= j < i ==> !RouteMatches(Routes[j], verb, path)
    ensures Target(verb, path) == Some(Routes[i].handler)
  {
    LowerLiterals();
    if |path| == 1 {
      assert SegmentMatches(Routes[i].pattern[0], path[0]);
      if i == 5 {
        assert !RouteMatches(Routes[2], verb, path);
      }
    } else if |path| == 2 {
      assert SegmentMatches(Routes[i].pattern[0], path[0]);
      assert SegmentMatches(Routes[i].pattern[1], path[1]);
    }
  }

  /** A request with a target matches some route. */
  lemma UnmatchedHasNoTarget(verb: Verb, path: seq<string>)
    requires forall j :: 0 <= j < |Routes| ==> !RouteMatches(Routes[j], verb, path)
    ensures Target(verb, path).None?
  {
    LowerLiterals();
    if |path| == 1 && path[0] != [] {
      assert !RouteMatches(Routes[5], verb, path);
      assert !RouteMatches(Routes[6], verb, path);
      assert !RouteMatches(Routes[7], verb, path);
    } else if |path| == 2 && path[0] != [] && verb == Post {
      assert !RouteMatches(Routes[3], verb, path);
      assert !RouteMatches(Routes[4], verb, path);
    } else if path == [] {
      assert !RouteMatches(Routes[0], verb, path);
      assert !RouteMatches(Routes[1], verb, path);
    }
  }

  lemma GuardChains(caller: Option<Role>)
    ensures RunGuards([Authenticate], caller) == if caller.None? then Some(Unauthorized) else None
    ensures RunGuards([Authenticate, IsAdmin], caller)
            == if caller.None? then Some(Unauthorized) else if caller != Some(Admin) then Some(Forbidden) else None
  {
    assert [Authenticate][1..] == [];
    assert [Authenticate, IsAdmin][1..] == [IsAdmin];
    assert [IsAdmin][1..] == [];
  }

  /** The route table enforces exactly the access policy: authentication on every route,
      checked before the admin requirement of the routes that change the catalog. */
  lemma DecideFollowsPolicy(verb: Verb, path: seq<string>, caller: Option<Role>)
    ensures Decide(verb, path, caller) == Policy(verb, path, caller)
  {
    FirstMatchIsTarget(verb, path);
    GuardChains(caller);
    var m := FirstMatch(Routes, verb, path, 0);
    if m.Some? {
      RouteGuards(m.value);
    }
  }

  /** Every route authenticates; the admin-only ones then require an admin. */
  lemma RouteGuards(i: nat)
    requires i < |Routes|
    ensures Routes[i].guards == if AdminOnly(Routes[i].handler) then [Authenticate, IsAdmin] else [Authenticate]
  {
  }

  /** Without a verified caller every route answers 401, admin routes included. */
  lemma UnauthenticatedRejected(verb: Verb, path: seq<string>)
    requires Target(verb, path).Some?
    ensures Decide(verb, path, None) == Unauthorized
    ensures DecisionStatus(Decide(verb, path, None)) == Some(401)
  {
    DecideFollowsPolicy(verb, path, None);
  }

  /** A customer is turned away with 403 exactly on the admin-only routes. */
  lemma CustomerForbiddenExactlyOnAdminRoutes(verb: Verb, path: seq<string>)
    requires Target(verb, path).Some?
    ensures Decide(verb, path, Some(Customer)) == Forbidden <==> AdminOnly(Target(verb, path).value)
    ensures !AdminOnly(Target(verb, path).value)
            ==> Decide(verb, path, Some(Customer)) == Dispatch(Target(verb, path).value, path)
  {
    DecideFollowsPolicy(verb, path, Some(Customer));
  }

  /** An admin reaches the handler of every route. */
  lemma AdminAllowedEverywhere(verb: Verb, path: seq<string>)
    requires Target(verb, path).Some?
    ensures Decide(verb, path, Some(Admin)) == Dispatch(Target(verb, path).value, path)
  {
    DecideFollowsPolicy(verb, path, Some(Admin));
  }

  /** GET /search is declared before GET /:id, so "search", in any case, is never read as an id;
      every other single segment is. */
  lemma SearchShadowsId(segment: string, caller: Option<Role>)
    requires caller.Some?
    ensures LowerString(segment) == "search" ==> Decide(Get, [segment], caller) == Dispatch(SearchSweets, [segment])
    ensures segment != [] && LowerString(segment) != "search"
            ==> Decide(Get, [segment], caller) == Dispatch(GetSweetById, [segment])
  {
    DecideFollowsPolicy(Get, [segment], caller);
    if LowerString(segment) == "search" {
      assert segment != [];
    }
  }
}

=== FILE: text.dfy ===
/** The string primitives the schema setters and the name search rely on. */
module Text {

  /** The characters JavaScript's String.prototype.trim strips: WhiteSpace and LineTerminator. */
  predicate IsSpace(c: char) {
    || c == '\t' || c == '\n' || c == '\U{000B}' || c == '\U{000C}' || c == '\r' || c == ' '
    || c == '\U{00A0}' || c == '\U{1680}' || ('\U{2000}' <= c <= '\U{200A}')
    || c == '\U{2028}' || c == '\U{2029}' || c == '\U{202F}' || c == '\U{205F}'
    || c == '\U{3000}' || c == '\U{FEFF}'
  }

  /** Drops the leading whitespace of `s`. */
  function TrimStart(s: string): (r: string)
    ensures |r| <= |s|
  {
    if s != [] && IsSpace(s[0]) then TrimStart(s[1..]) else s
  }

  /** TrimStart keeps a suffix, cuts only whitespace, and stops at the first other character. */
  lemma {:induction false} TrimStartSpec(s: string)
    ensures TrimStart(s) == s[|s| - |TrimStart(s)|..]
    ensures forall k :: 0 <= k < |s| - |TrimStart(s)| ==> IsSpace(s[k])
    ensures TrimStart(s) != [] ==> !IsSpace(TrimStart(s)[0])
  {
    if s != [] && IsSpace(s[0]) {
      TrimStartSpec(s[1..]);
      forall k | 1 <= k < |s| - |TrimStart(s)|
        ensures IsSpace(s[k])
      {
        assert s[k] == s[1..][k - 1];
      }
    }
  }

  /** Drops the trailing whitespace of `s`. */
  function TrimEnd(s: string): (r: string)
    ensures |r| <= |s|
  {
    if s != [] && IsSpace(s[|s| - 1]) then TrimEnd(s[..|s| - 1]) else s
  }

  /** TrimEnd keeps a prefix, cuts only whitespace, and stops at the last other character. */
  lemma {:induction false} TrimEndSpec(s: string)
    ensures TrimEnd(s) == s[..|TrimEnd(s)|]
    ensures forall k :: |TrimEnd(s)| <= k < |s| ==> IsSpace(s[k])
    ensures TrimEnd(s) != [] ==> !IsSpace(TrimEnd(s)[|TrimEnd(s)| - 1])
  {
    if s != [] && IsSpace(s[|s| - 1]) {
      TrimEndSpec(s[..|s| - 1]);
      forall k | |TrimEnd(s)| <= k < |s| - 1
        ensures IsSpace(s[k])
      {
        assert s[k] == s[..|s| - 1][k];
      }
    }
  }

  /** Neither end of `s` is whitespace: what Trim leaves behind. */
  predicate Trimmed(s: string) {
    s != [] ==> !IsSpace(s[0]) && !IsSpace(s[|s| - 1])
  }

  /** JavaScript's `s.trim()`, applied by every `trim: true` schema setter. */
  function Trim(s: string): string {
    TrimEnd(TrimStart(s))
  }

  /** Trim cuts whitespace, and only whitespace, from both ends: the result is the slice
      `s[i..j]`, everything outside it is whitespace, and neither end of it is. */
  lemma TrimSpec(s: string) returns (i: nat, j: nat)
    ensures i <= j <= |s| && Trim(s) == s[i..j]
    ensures forall k :: 0 <= k < i ==> IsSpace(s[k])
    ensures forall k :: j <= k < |s| ==> IsSpace(s[k])
    ensures Trimmed(Trim(s))
  {
    var t := TrimStart(s);
    var r := TrimEnd(t);
    TrimStartSpec(s);
    TrimEndSpec(t);
    i, j := |s| - |t|, |s| - |t| + |r|;
    assert r == s[i..j] by {
      PrefixOfSuffix(s, i, |r|);
    }
    assert Trimmed(r) by {
      if r != [] {
        assert r[0] == t[0];
      }
    }
    forall k | j <= k < |s|
      ensures IsSpace(s[k])
    {
      assert s[k] == t[k - i];
    }
  }

  lemma PrefixOfSuffix(s: string, i: nat, n: nat)
    requires i + n <= |s|
    ensures s[i..][..n] == s[i..i + n]
  {
  }

  /** A string with no whitespace at either end is its own trim. */
  lemma TrimmedFixed(s: string)
    requires Trimmed(s)
    ensures Trim(s) == s
  {
    assert TrimStart(s) == s;
    assert TrimEnd(s) == s;
  }

  /** Trim leaves exactly the trimmed strings alone; in particular it is idempotent. */
  lemma TrimFixpoint(s: string)
    ensures Trim(s) == s <==> Trimmed(s)
    ensures Trimmed(Trim(s)) && Trim(Trim(s)) == Trim(s)
  {
    var _, _ := TrimSpec(s);
    TrimmedFixed(Trim(s));
    if Trimmed(s) {
      TrimmedFixed(s);
    }
  }

  /** Lower-cases an ASCII letter and leaves every other character alone. */
  function LowerChar(c: char): (r: char)
    ensures 'A' <= c <= 'Z' ==> 'a' <= r <= 'z' && r as int - c as int == 32
    ensures !('A' <= c <= 'Z') ==> r == c
  {
    if 'A' <= c <= 'Z' then (c as int + 32) as char else c
  }

  /** Lower-cases every ASCII letter of `s`. */
  function LowerString(s: string): (r: string)
    ensures |r| == |s|
    ensures forall i :: 0 <= i < |s| ==> r[i] == LowerChar(s[i])
  {
    seq(|s|, i requires 0 <= i < |s| => LowerChar(s[i]))
  }

  /** Two characters that are equal or are the same ASCII letter in the two cases. */
  predicate SameIgnoringCase(c: char, d: char) {
    || c == d
    || ('A' <= c <= 'Z' && d as int == c as int + 32)
    || ('A' <= d <= 'Z' && c as int == d as int + 32)
  }

  /** Lower-casing identifies exactly the characters that differ only in letter case. */
  lemma LowerCharAgrees(c: char, d: char)
    ensures LowerChar(c) == LowerChar(d) <==> SameIgnoringCase(c, d)
  {
  }

  /** Two strings lower-case to the same string exactly when they have the same length and
      agree position by position up to the case of ASCII letters. */
  lemma LowerStringAgrees(a: string, b: string)
    ensures LowerString(a) == LowerString(b)
            <==> |a| == |b| && forall i :: 0 <= i < |a| ==> SameIgnoringCase(a[i], b[i])
  {
    if |a| == |b| {
      forall i | 0 <= i < |a|
        ensures LowerString(a)[i] == LowerString(b)[i] <==> SameIgnoringCase(a[i], b[i])
      {
        LowerCharAgrees(a[i], b[i]);
      }
      if forall i :: 0 <= i < |a| ==> SameIgnoringCase(a[i], b[i]) {
        assert LowerString(a) == LowerString(b);
      }
    }
  }

  /** A lower-cased string holds no ASCII capital and lower-casing it again changes nothing. */
  lemma LowerStringIdempotent(s: string)
    ensures forall i :: 0 <= i < |s| ==> !('A' <= LowerString(s)[i] <= 'Z')
    ensures LowerString(LowerString(s)) == LowerString(s)
  {
  }

  /** `pattern` occurs in `text` at offset `i`, letters compared without regard to case. */
  predicate MatchesAt(text: string, pattern: string, i: nat)
    requires i + |pattern| <= |text|
  {
    forall k :: 0 <= k < |pattern| ==> LowerChar(text[i + k]) == LowerChar(pattern[k])
  }

  /** `pattern` occurs somewhere in `text`, letters compared without regard to case. */
  predicate ContainsIgnoreCase(text: string, pattern: string) {
    exists i: nat :: i + |pattern| <= |text| && MatchesAt(text, pattern, i)
  }

  /** A character outside the Basic Multilingual Plane: UTF-16 stores it as a surrogate pair. */
  predicate Astral(c: char) { c >= '\U{10000}' }

  /** How many characters of `s` from position `i` on are astral. */
  function AstralFrom(s: string, i: nat): (n: nat)
    requires i <= |s|
    ensures n <= |s| - i
    decreases |s| - i
  {
    if i == |s| then 0 else (if Astral(s[i]) then 1 else 0) + AstralFrom(s, i + 1)
  }

  /** The length JavaScript reports for `s`: one UTF-16 code unit per character and a second
      for each astral one. */
  function Utf16Length(s: string): (n: nat)
    ensures |s| <= n <= 2 * |s|
  {
    |s| + AstralFrom(s, 0)
  }

  /** Counting the astral characters from `i` on: none exactly when no character there is
      astral, all of them exactly when every one is. */
  lemma {:induction false} AstralCount(s: string, i: nat)
    requires i <= |s|
    ensures AstralFrom(s, i) == 0 <==> forall k :: i <= k < |s| ==> !Astral(s[k])
    ensures AstralFrom(s, i) == |s| - i <==> forall k :: i <= k < |s| ==> Astral(s[k])
    decreases |s| - i
  {
    if i < |s| {
      AstralCount(s, i + 1);
    }
  }

  /** The JavaScript length agrees with the character count exactly when no character is
      astral, and doubles it exactly when every character is. */
  lemma Utf16LengthCounts(s: string)
    ensures Utf16Length(s) == |s| <==> forall k :: 0 <= k < |s| ==> !Astral(s[k])
    ensures Utf16Length(s) == 2 * |s| <==> forall k :: 0 <= k < |s| ==> Astral(s[k])
  {
    AstralCount(s, 0);
  }
}
